=== FILE: README.md ===
# redux-call-api, modelled in Dafny

A model of the two pieces of redux-call-api, an adapter that lets a Redux store make asynchronous API calls and turn their outcomes into dispatched actions:

- **`CallApi`** (src/call-api.js) holds one configuration: a registry of actions, each with a `makeApiObj` factory, plus a provider with a `request` function. The `config` setter validates a configuration before it replaces the old one. `request(action, dispatch, getState)` does these steps in order:
  - looks the action's type up in the registry;
  - builds a call object ("apiObj") with the entry's `makeApiObj`;
  - runs `beforeRequest`;
  - checks that the call object has a `request`;
  - passes that `request` to the provider;
  - routes the provider's outcome to exactly one of `onSuccess` and `onFailure`.

  The default hooks only forward to the configuration's hooks of the same name, and only when those exist.
- **`BasicConfig`** (src/basic-config.js) is the default hook set. Each hook does three things in order:
  - checks that `apiObj.actionTypes` names an action type for its own kind;
  - calls the call object's own override, if there is one;
  - dispatches exactly one action: `{type}`, `{type, payload: data, meta}` or `{type, payload: data || response, error: true, meta}`.

  Here `meta` is the response with `data` removed.

How the model is built:

- **Values.** JavaScript values are the datatype `Js.Value`. Objects are `map<string, Value>`. The model keeps `undefined`, `null`, falsy strings, zero and `false` apart, because truthiness decides several branches.
- **Calls.** Every call of user code is an event `Call(callee, args)` in a trace. This covers the factory, the overrides, the provider's `request`, and `dispatch` itself. A piece of code's `Effect` is its trace together with the exception it ended with, if any.
- **Provider outcome.** The provider's promise is reduced to how it settled (`Settlement`). What `request` returns is a `Run`: the trace, plus either a synchronous throw, a promise that resolves, or a promise that rejects because a hook threw.
- **Factory results.** What a factory returns for an action is a function parameter, `factoryResult(factory, action)`.
- **BasicConfig as a configuration.** The three closures of a BasicConfig are distinct function values. When a CallApi's configuration is a BasicConfig, forwarding to its hooks therefore runs BasicConfig's semantics, and module `Lifecycle` can follow a request from end to end.

Modules:

- `Wrappers`: Option and Result.
- `Js`: values, truthiness, `typeof`, property reads, calls, traces.
- `BasicConfig`: the default hooks, as pure functions.
- `CallApi`: validation, forwarding, the request sequence, and the class `CallApi`. The class has the mutable `config` field, a validating setter, and `Request`, which is proved equal to the function `RunRequest`.
- `Lifecycle`: the two pieces combined.

Behaviour of the code worth knowing, which the model keeps:

- **`beforeRequest` runs before the call-object check.** `request` calls `beforeRequest` (src/call-api.js:35) before it checks that the call object has a `request` (src/call-api.js:36-38). A hook that dispatches has therefore already dispatched when `request` throws for a missing `request`.
- **Failure payload uses truthiness.** The failure payload is `response.data || response` (src/basic-config.js:36). A falsy `data` such as `0` or `''` is replaced by the whole response.
- **Nullish responses throw after the override.** `onSuccess` and `onFailure` call the override first (src/basic-config.js:15-17, 29-31) and read `response.data` afterwards (src/basic-config.js:18-22, 32-36). A response that is `undefined` or `null` therefore makes the hook throw a TypeError after the override has run, and nothing is dispatched.
- **No automatic per-call override in `CallApi`.** `CallApi`'s default hooks call only the configuration's hook of the same name (src/call-api.js:4-23). The call object's own overrides run only inside BasicConfig's hooks, after the action-type check and before the dispatch (src/basic-config.js:7-9, 15-17, 29-31).

## Model

| member | source | states |
|---|---|---|
| `Js.CallIfPresent` | src/basic-config.js:7-9 | "Call it if it exists": nothing happens when the value is falsy. Exactly one call with the given arguments happens when it is a function. A TypeError is thrown when it is truthy but not a function. |
| `BasicConfig.New` | src/basic-config.js:1-3 | The constructed object holds `actions` and `provider` unchanged, plus the three default hooks. |
| `BasicConfig.Validate` | src/basic-config.js:42-48 | Fails, with the kind named, exactly when `apiObj`, `apiObj.actionTypes` or `apiObj.actionTypes[kind]` is falsy. Only that one kind is looked at. |
| `BasicConfig.Meta` | src/basic-config.js:18-19 | The meta has no `data` key. It has exactly the response's other keys, each with the response's value. A response that is not an object gives an empty meta. |
| `BasicConfig.FailurePayload` | src/basic-config.js:36 | The payload is `data` when `data` is truthy and the whole response otherwise. So the payload is truthy exactly when the response is. |
| `BasicConfig.RequestAction` | src/basic-config.js:10 | The request action has exactly the key `type`, holding `actionTypes.request`. |
| `BasicConfig.SuccessAction` | src/basic-config.js:20-24 | The success action has exactly `type` (`actionTypes.success`), `payload` (`response.data`, possibly undefined) and `meta` (the response without `data`). |
| `BasicConfig.FailureAction` | src/basic-config.js:34-39 | The failure action has exactly `type` (`actionTypes.failure`), `payload` (the failure payload above), `error: true` and `meta` (the response without `data`). |
| `BasicConfig.BeforeRequest` | src/basic-config.js:5-11 | Throws before calling anything when the request type is missing. An override that is truthy but not a function throws a TypeError before anything is called. Otherwise it calls the override (if present) with `(apiObj, dispatch, getState)`; then, when `dispatch` is a function, it dispatches `{type}` exactly once, and when it is not, it throws a TypeError after the override. Whenever it does not throw, its last call is that dispatch. |
| `BasicConfig.OnSuccess` | src/basic-config.js:13-25 | Throws before calling anything when the success type is missing, and throws a TypeError before calling anything when the override is truthy but not a function. Otherwise it calls the override (if present) with the same response and `apiObj`. Then, for a response that is not `undefined` or `null` and a `dispatch` that is a function, it dispatches the success action exactly once, as its last call; for a nullish response or a `dispatch` that is not a function it throws a TypeError after the override. |
| `BasicConfig.OnFailure` | src/basic-config.js:27-40 | Like `OnSuccess`, with the failure type, the failure override and the failure action: for a response that is not `undefined` or `null` it dispatches the failure action exactly once, as its last call, and a nullish response throws a TypeError after the override. |
| `BasicConfig.HooksDispatchOnce` | src/basic-config.js:5-40 | When a hook does not throw, it makes at most two calls, and the last is `dispatch`. When it makes two, the first is the override with the hook's own arguments. |
| `BasicConfig.BareErrorFailure` | src/basic-config.js:32-36 | A failure response without `data` becomes both the payload and the meta of the failure action. |
| `CallApi.ConfigProblem` | src/call-api.js:46-64 | Validation accepts only a truthy configuration, and every failure it reports is one of the six errors `validateConfig` throws: config undefined, `actions` not an object, `makeApiObj` not a function, `provider` not an object, `provider.request` not a function, or a TypeError (from `Object.keys(null)` for `actions: null`, or from reading `null.request` for `provider: null`). |
| `CallApi.RejectedConfigs` | src/call-api.js:46-64 | `undefined` fails with "config undefined". `{bad: true}` fails with "`actions` not an object". A registry entry without `makeApiObj` fails with "`makeApiObj` not a function". |
| `CallApi.ConfigProblemNoneIff` | src/call-api.js:46-64 | Validation accepts a configuration if and only if it is well formed. Well formed means `actions` is an object whose every entry is an object with a `makeApiObj` function, and `provider` is an object with a `request` function. |
| `CallApi.ValidateConfig` | src/call-api.js:46-64 | The checks and the loop over the registry's keys return exactly the first failure, in the source's order. |
| `CallApi.Invoke` | src/call-api.js:7 | Calling a truthy hook value always has an effect: a call, a dispatch or a throw. Calling a user function is exactly one recorded call with the arguments unchanged. |
| `CallApi.Forward` | src/call-api.js:4-23 | Each default hook does nothing if and only if the configuration has no hook of that name. When it has one, that hook is invoked with the same arguments. Without a configuration the default hook throws. |
| `CallApi.RunRequest` | src/call-api.js:25-44 | Without a configuration nothing is called and `request` throws. The first call, when there is one, receives the action unchanged. A run that does not throw synchronously has a configuration, makes at least two calls, and one call after the first is the configuration's `provider.request`; `ProviderThenOneHook` says exactly which calls come where. The outcome goes to `onSuccess` or `onFailure` inside the same function (src/call-api.js:39-43). |
| `CallApi.RequestWithoutConfig` | src/call-api.js:26-29 | Without a configuration, `request` throws before calling anything. |
| `CallApi.UnknownActionThrows` | src/call-api.js:30-33 | An action type missing from the registry makes `request` throw before `makeApiObj`, any hook or the provider is called. |
| `CallApi.FactoryThenBeforeRequest` | src/call-api.js:34-38 | `makeApiObj` is called first, with the action unchanged, and then `beforeRequest` with the resulting call object. If that hook throws, or the call object lacks a `request`, `request` throws and the provider is never called. |
| `CallApi.ProviderThenOneHook` | src/call-api.js:39-43 | The provider is called exactly once, with `apiObj.request` unchanged. Its outcome goes only to `onSuccess` (resolved) or only to `onFailure` (rejected), with the same call object. The returned promise rejects only when that hook throws. |
| `CallApi.CallApi.constructor` | src/call-api.js:2 | A new CallApi has no configuration. |
| `CallApi.CallApi.New` | src/call-api.js:78 | A truthy argument goes through the validating setter, and its failure escapes the constructor. A falsy argument leaves the configuration undefined. |
| `CallApi.CallApi.SetConfig` | src/call-api.js:66-76 | The setter reports exactly the validation failure. When validation passes, reading `config` afterwards gives the value set. When it fails, the held configuration is unchanged. The held configuration is always one that passed validation. |
| `CallApi.CallApi.BeforeRequest` | src/call-api.js:4-9 | Forwards to the configuration's `beforeRequest` as `Forward` states. |
| `CallApi.CallApi.OnSuccess` | src/call-api.js:11-16 | Forwards to the configuration's `onSuccess` as `Forward` states. |
| `CallApi.CallApi.OnFailure` | src/call-api.js:18-23 | Forwards to the configuration's `onFailure` as `Forward` states. |
| `CallApi.CallApi.Request` | src/call-api.js:25-44 | Performs the request sequence step by step, with exactly the trace and completion of `RunRequest`. The lemmas above state what that sequence guarantees. |
| `CallApi.HeldConfigWellFormed` | src/call-api.js:66-69 | A CallApi whose held configuration is set holds a well-formed one: every registry entry has a `makeApiObj` function and the provider has a `request` function. |
| `Lifecycle.BasicConfigAccepted` | src/basic-config.js:1-3 | A BasicConfig passes the CallApi setter if and only if its `actions` is an object of entries with `makeApiObj` functions and its `provider` is an object with a `request` function. |
| `Lifecycle.ForwardsToBasicHooks` | src/call-api.js:4-23 | With a BasicConfig as configuration, the CallApi's default hooks run BasicConfig's hooks with the same arguments. |
| `Lifecycle.BasicBeforeRequestEffect` | src/basic-config.js:5-11 | Through a CallApi, BasicConfig's `beforeRequest` calls the override and then dispatches the request action, without throwing, whenever the call object names the request type, its `beforeRequest` override is absent or a function, and `dispatch` is a function. |
| `Lifecycle.BasicOutcomeEffect` | src/basic-config.js:13-40 | Through a CallApi, the hook for the provider's outcome calls that outcome's override and then dispatches that outcome's action, without throwing, whenever the call object names that outcome's type, that outcome's override is absent or a function, `dispatch` is a function and the response is not `undefined` or `null`. Nothing else about the call object is asked. |
| `Lifecycle.BasicOutcomeUnnamed` | src/basic-config.js:13-17 | Through a CallApi, the hook for the provider's outcome throws the missing-type error before calling anything when the call object names no action type for that outcome. |
| `Lifecycle.BasicRequestTrace` | src/call-api.js:25-44 | The whole trace of a request through a BasicConfig, in order: factory, request override, request dispatch, provider, outcome override, outcome dispatch, and the returned promise resolves, whenever the call object names the request type and the outcome's type and has a truthy `request`, the overrides that run are absent or functions, `dispatch` is a function, and the response is not `undefined` or `null`. Nothing is asked of the other outcome's type or override. |
| `Lifecycle.DispatchedBeforeProvider` | src/call-api.js:34-39 | Up to and including the provider call, `dispatch` receives only the request action, when it is not the factory, the provider or the `beforeRequest` override. |
| `Lifecycle.DispatchedOfOutcome` | src/basic-config.js:13-40 | The outcome's hook makes `dispatch` receive only the outcome's action, when `dispatch` is not that outcome's override. |
| `Lifecycle.DispatchedOfBasicTrace` | src/basic-config.js:5-40 | In such a trace, `dispatch` receives the request action and then the outcome's action, and nothing else, as long as `dispatch` is not itself the factory, the provider or one of the two overrides that run. |
| `Lifecycle.BasicRequestDispatches` | src/call-api.js:25-44 | Under the conditions of `BasicRequestTrace`, and when `dispatch` is not the factory, the provider or an override that runs, a request through a BasicConfig dispatches exactly two actions, `{type: request}` and then the success or the failure action, and the returned promise resolves. |
| `Lifecycle.MissingRequestTypeThrows` | src/call-api.js:34-38 | Without a request action type, `request` throws after `makeApiObj`, with nothing dispatched and no provider call. |
| `Lifecycle.MissingOutcomeTypeRejects` | src/call-api.js:39-43 | When the call object names the request type but not the outcome's type, has a truthy `request`, its `beforeRequest` override is absent or a function and `dispatch` is a function, the returned promise rejects with the missing-type error after the request dispatch and the provider call, and nothing more is dispatched. |
| `Lifecycle.NotFoundFailure` | src/test/basic-config.spec.js:142-153 | `{data: 'not found', status: 404}` becomes the payload `'not found'` with `error: true` and meta `{status: 404}`. |

## Left out

- Asynchrony: the provider's promise is given as its settlement, and everything after it sits in the same trace. Overlapping requests are not modelled. Neither is a configuration replaced while a request is in flight, or a provider whose promise never settles.
- `provider.request` returning something that is not a promise, so that `.then` would throw: not modelled.
- Replacing a CallApi's own hooks on the instance (`api.beforeRequest = fn`, as some tests do): the model always uses the default forwarding hooks.
- Mutating the held configuration object after it was set: the model holds a value. In the source nothing validates such a mutation again (src/test/call-api.spec.js:174, src/test/basic-config.spec.js:100 mutate `api.config` in place), so the held object can become one `validateConfig` would reject. The model's invariant `Valid()` rules that state out.
- Bodies of user callbacks: `makeApiObj`, overrides, `dispatch`, `getState` and the provider's `request` are recorded as calls. They are assumed to return normally without dispatching, and without changing `apiObj` or `response`. In the source an override could, for instance, set `apiObj.request` before it is checked (src/call-api.js:36) or change `actionTypes` before the request action is built (src/basic-config.js:10). Only the value `makeApiObj` returns is used, and it is given as a parameter. The `this` of each call is not recorded.
- An override that is itself one of BasicConfig's hooks is recorded as a call rather than run.
- `ValidateConfig`: a registry entry that is `undefined` or `null` makes JavaScript throw its own TypeError while reading `makeApiObj`. The model reports `MakeApiObjNotFunction` for it, because with several bad entries the key order would decide which throw is seen.
- Object key order and inherited (prototype) properties: an action type such as `"toString"` would find `Object.prototype.toString` in JavaScript. It is not found in the model.
- The property key of a function is its source text in JavaScript; the model uses the function's name.
- Numbers are integers: NaN, fractions and `-0` are not modelled.
- Spreading a string into `meta` gives index keys in JavaScript; the model gives an empty meta for every non-object response. Functions carry no properties in the model.
- The text of the error messages, including the `JSON.stringify` of the call object: errors are the `Js.Error` enum.
- The Redux store, `createStore`/`applyMiddleware`, the redux-trigger middleware and the tests' reducer.

=== FILE: basic_config.dfy ===
/**
  The default hook set (src/basic-config.js). Each hook checks that the call
  object names an action type for its own kind, calls the call object's own
  override of the same hook if it has one, and then dispatches exactly one
  action of a fixed shape. The hooks compute nothing else, so each is a
  function from its arguments to the Effect it has.
 */
module BasicConfig {
  import opened Wrappers
  import opened Js

  /** `new BasicConfig(actions, provider)`: an object holding the two arguments
      unchanged and the three hooks. */
  function New(actions: Value, provider: Value): (config: Value)
    ensures config.Obj? && Truthy(config)
    ensures Field(config, "actions") == actions && Field(config, "provider") == provider
    ensures Field(config, "beforeRequest") == Fn(BasicBeforeRequest)
    ensures Field(config, "onSuccess") == Fn(BasicOnSuccess)
    ensures Field(config, "onFailure") == Fn(BasicOnFailure)
  {
    Obj(map[
      "actions" := actions,
      "provider" := provider,
      "beforeRequest" := Fn(BasicBeforeRequest),
      "onSuccess" := Fn(BasicOnSuccess),
      "onFailure" := Fn(BasicOnFailure)])
  }

  /** `apiObj.actionTypes[kind]` is truthy, read without ever touching
      `undefined` or `null` (each read is guarded by the previous test). */
  predicate HasActionType(apiObj: Value, kind: string) {
    && Truthy(apiObj)
    && Truthy(Field(apiObj, "actionTypes"))
    && Truthy(Field(Field(apiObj, "actionTypes"), kind))
  }

  /** `validate(apiObj, kind)`: throws unless the action type of that kind is
      present; nothing else is looked at. */
  function Validate(apiObj: Value, kind: string): (problem: Option<Error>)
    ensures problem == None <==> HasActionType(apiObj, kind)
    ensures problem != None ==> problem == Some(MissingActionType(kind))
  {
    if HasActionType(apiObj, kind) then None else Some(MissingActionType(kind))
  }

  function ActionType(apiObj: Value, kind: string): Value
    requires HasActionType(apiObj, kind)
  {
    Field(Field(apiObj, "actionTypes"), kind)
  }

  /** `{ ...response }`: the own properties of an object; spreading any other
      value gives an empty object. */
  function Spread(response: Value): map<string, Value> {
    if response.Obj? then response.fields else map[]
  }

  /** The `meta` of the success and failure actions: the response with its
      `data` property deleted. */
  function Meta(response: Value): (meta: map<string, Value>)
    ensures "data" !in meta
    ensures forall k :: k in meta <==> response.Obj? && k in response.fields && k != "data"
    ensures forall k :: k in meta ==> meta[k] == response.fields[k]
  {
    Spread(response) - {"data"}
  }

  /** `response.data || response`: the data when it is truthy, otherwise the
      whole response; so the payload is truthy exactly when the response is. */
  function FailurePayload(response: Value): (payload: Value)
    requires !Nullish(response)
    ensures Truthy(Field(response, "data")) ==> payload == Field(response, "data")
    ensures !Truthy(Field(response, "data")) ==> payload == response
    ensures Truthy(payload) <==> Truthy(response)
  {
    var data := Field(response, "data");
    if Truthy(data) then data else response
  }

  /** `{type: apiObj.actionTypes.request}` */
  function RequestAction(apiObj: Value): (action: Value)
    requires HasActionType(apiObj, "request")
    ensures action.Obj? && action.fields.Keys == {"type"}
    ensures action.fields["type"] == apiObj.fields["actionTypes"].fields["request"]
  {
    Obj(map["type" := ActionType(apiObj, "request")])
  }

  /** `{type: apiObj.actionTypes.success, payload: response.data, meta}` */
  function SuccessAction(apiObj: Value, response: Value): (action: Value)
    requires HasActionType(apiObj, "success") && !Nullish(response)
    ensures action.Obj? && action.fields.Keys == {"type", "payload", "meta"}
    ensures action.fields["type"] == apiObj.fields["actionTypes"].fields["success"]
    ensures action.fields["payload"] == Field(response, "data")
    ensures action.fields["meta"] == Obj(Meta(response))
  {
    Obj(map[
      "type" := ActionType(apiObj, "success"),
      "payload" := Field(response, "data"),
      "meta" := Obj(Meta(response))])
  }

  /** `{type: apiObj.actionTypes.failure, payload: response.data || response,
      error: true, meta}` */
  function FailureAction(apiObj: Value, response: Value): (action: Value)
    requires HasActionType(apiObj, "failure") && !Nullish(response)
    ensures action.Obj? && action.fields.Keys == {"type", "payload", "error", "meta"}
    ensures action.fields["type"] == apiObj.fields["actionTypes"].fields["failure"]
    ensures action.fields["payload"] == FailurePayload(response)
    ensures action.fields["error"] == Bool(true)
    ensures action.fields["meta"] == Obj(Meta(response))
  {
    Obj(map[
      "type" := ActionType(apiObj, "failure"),
      "payload" := FailurePayload(response),
      "error" := Bool(true),
      "meta" := Obj(Meta(response))])
  }

  /** The calls an override makes visible: one call with the hook's own
      arguments when the call object has that hook, none otherwise. */
  function OverrideCalls(apiObj: Value, hook: string, args: seq<Value>): seq<Event>
    requires !Nullish(apiObj)
  {
    if Truthy(Field(apiObj, hook)) then [Call(Field(apiObj, hook), args)] else []
  }

  /** The call object's override of `hook` is absent or a function. */
  predicate OverrideCallable(apiObj: Value, hook: string)
    requires !Nullish(apiObj)
  {
    Truthy(Field(apiObj, hook)) ==> Field(apiObj, hook).Fn?
  }

  /** The conditions under which a hook's calls cannot throw: the override, if
      present, and `dispatch` are functions. */
  predicate Callable(apiObj: Value, hook: string, dispatch: Value)
    requires !Nullish(apiObj)
  {
    OverrideCallable(apiObj, hook) && dispatch.Fn?
  }

  /** `this.beforeRequest(apiObj, dispatch, getState)` */
  function BeforeRequest(apiObj: Value, dispatch: Value, getState: Value): (e: Effect)
    ensures !HasActionType(apiObj, "request") ==> e == Effect([], Some(MissingActionType("request")))
    ensures HasActionType(apiObj, "request") && Callable(apiObj, "beforeRequest", dispatch) ==>
      e == Effect(OverrideCalls(apiObj, "beforeRequest", [apiObj, dispatch, getState])
                  + [Call(dispatch, [RequestAction(apiObj)])], None)
    ensures e.thrown == None ==>
      (HasActionType(apiObj, "request") && |e.trace| > 0 &&
       e.trace[|e.trace| - 1] == Call(dispatch, [RequestAction(apiObj)]))
    // a truthy override that is not a function throws before anything is called
    ensures HasActionType(apiObj, "request") && !OverrideCallable(apiObj, "beforeRequest") ==>
      e == Effect([], Some(TypeError))
    // a `dispatch` that is not a function throws after the override was called
    ensures HasActionType(apiObj, "request") && OverrideCallable(apiObj, "beforeRequest") && !dispatch.Fn? ==>
      e == Effect(OverrideCalls(apiObj, "beforeRequest", [apiObj, dispatch, getState]), Some(TypeError))
  {
    match Validate(apiObj, "request")
    case Some(problem) => Effect([], Some(problem))
    case None =>
      Then(CallIfPresent(Field(apiObj, "beforeRequest"), [apiObj, dispatch, getState]),
           Apply(dispatch, [RequestAction(apiObj)]))
  }

  /** `this.onSuccess(response, apiObj, dispatch, getState)` */
  function OnSuccess(response: Value, apiObj: Value, dispatch: Value, getState: Value): (e: Effect)
    ensures !HasActionType(apiObj, "success") ==> e == Effect([], Some(MissingActionType("success")))
    ensures HasActionType(apiObj, "success") && Callable(apiObj, "onSuccess", dispatch) && !Nullish(response) ==>
      e == Effect(OverrideCalls(apiObj, "onSuccess", [response, apiObj, dispatch, getState])
                  + [Call(dispatch, [SuccessAction(apiObj, response)])], None)
    ensures e.thrown == None ==>
      (HasActionType(apiObj, "success") && !Nullish(response) && |e.trace| > 0 &&
       e.trace[|e.trace| - 1] == Call(dispatch, [SuccessAction(apiObj, response)]))
    // a truthy override that is not a function throws before anything is called
    ensures HasActionType(apiObj, "success") && !OverrideCallable(apiObj, "onSuccess") ==>
      e == Effect([], Some(TypeError))
    // reading `response.data` of `undefined` or `null`, or calling a `dispatch`
    // that is not a function, throws after the override was called
    ensures HasActionType(apiObj, "success") && OverrideCallable(apiObj, "onSuccess") && (Nullish(response) || !dispatch.Fn?) ==>
      e == Effect(OverrideCalls(apiObj, "onSuccess", [response, apiObj, dispatch, getState]), Some(TypeError))
  {
    match Validate(apiObj, "success")
    case Some(problem) => Effect([], Some(problem))
    case None =>
      var override := CallIfPresent(Field(apiObj, "onSuccess"), [response, apiObj, dispatch, getState]);
      if override.thrown.Some? then override
      else if Nullish(response) then Effect(override.trace, Some(TypeError))
      else Then(override, Apply(dispatch, [SuccessAction(apiObj, response)]))
  }

  /** `this.onFailure(response, apiObj, dispatch, getState)` */
  function OnFailure(response: Value, apiObj: Value, dispatch: Value, getState: Value): (e: Effect)
    ensures !HasActionType(apiObj, "failure") ==> e == Effect([], Some(MissingActionType("failure")))
    ensures HasActionType(apiObj, "failure") && Callable(apiObj, "onFailure", dispatch) && !Nullish(response) ==>
      e == Effect(OverrideCalls(apiObj, "onFailure", [response, apiObj, dispatch, getState])
                  + [Call(dispatch, [FailureAction(apiObj, response)])], None)
    ensures e.thrown == None ==>
      (HasActionType(apiObj, "failure") && !Nullish(response) && |e.trace| > 0 &&
       e.trace[|e.trace| - 1] == Call(dispatch, [FailureAction(apiObj, response)]))
    // a truthy override that is not a function throws before anything is called
    ensures HasActionType(apiObj, "failure") && !OverrideCallable(apiObj, "onFailure") ==>
      e == Effect([], Some(TypeError))
    // reading `response.data` of `undefined` or `null`, or calling a `dispatch`
    // that is not a function, throws after the override was called
    ensures HasActionType(apiObj, "failure") && OverrideCallable(apiObj, "onFailure") && (Nullish(response) || !dispatch.Fn?) ==>
      e == Effect(OverrideCalls(apiObj, "onFailure", [response, apiObj, dispatch, getState]), Some(TypeError))
  {
    match Validate(apiObj, "failure")
    case Some(problem) => Effect([], Some(problem))
    case None =>
      var override := CallIfPresent(Field(apiObj, "onFailure"), [response, apiObj, dispatch, getState]);
      if override.thrown.Some? then override
      else if Nullish(response) then Effect(override.trace, Some(TypeError))
      else Then(override, Apply(dispatch, [FailureAction(apiObj, response)]))
  }

  /** A hook that does not throw makes at most two calls: first the override,
      when there is one, with the hook's own arguments, and last `dispatch`. */
  lemma HooksDispatchOnce(response: Value, apiObj: Value, dispatch: Value, getState: Value)
    ensures var e := BeforeRequest(apiObj, dispatch, getState);
      e.thrown == None ==>
        (|e.trace| <= 2 && e.trace[|e.trace| - 1].callee == dispatch &&
         (|e.trace| == 2 ==> e.trace[0] == Call(Field(apiObj, "beforeRequest"), [apiObj, dispatch, getState])))
    ensures var e := OnSuccess(response, apiObj, dispatch, getState);
      e.thrown == None ==>
        (|e.trace| <= 2 && e.trace[|e.trace| - 1].callee == dispatch &&
         (|e.trace| == 2 ==> e.trace[0] == Call(Field(apiObj, "onSuccess"), [response, apiObj, dispatch, getState])))
    ensures var e := OnFailure(response, apiObj, dispatch, getState);
      e.thrown == None ==>
        (|e.trace| <= 2 && e.trace[|e.trace| - 1].callee == dispatch &&
         (|e.trace| == 2 ==> e.trace[0] == Call(Field(apiObj, "onFailure"), [response, apiObj, dispatch, getState])))
  {
  }

  /** A transport error without a `data` property: the failure action carries
      the whole error as its payload and all of it as its meta. */
  lemma BareErrorFailure(apiObj: Value, response: Value)
    requires HasActionType(apiObj, "failure") && response.Obj? && "data" !in response.fields
    ensures FailureAction(apiObj, response).fields["payload"] == response
    ensures FailureAction(apiObj, response).fields["meta"] == response
  {
    assert Meta(response) == response.fields;
  }
}

=== FILE: call_api.dfy ===
/**
  The request orchestrator (src/call-api.js). A `CallApi` holds one
  configuration, replaced only through a validating setter. Its `request`
  looks the incoming action up in the configuration's registry, builds a call
  object with the entry's `makeApiObj`, runs the `beforeRequest` hook, hands
  the call object's `request` to the provider and routes the provider's
  outcome to exactly one of `onSuccess` and `onFailure`.

  The provider's promise is reduced to how it settled (a `Settlement` given as
  a parameter), the value `makeApiObj` returns is given by a function of the
  factory and the action, and every call the orchestrator makes is an event in
  the trace it returns.
 */
module CallApi {
  import opened Wrappers
  import opened Js
  import BasicConfig

  /** How the promise returned by `provider.request` settled. */
  datatype Settlement = ProviderResolved(response: Value) | ProviderRejected(response: Value)

  /** How a call of `request` ended: it threw before returning, or it returned
      a promise that resolves, or one that rejects because a hook threw. */
  datatype Completion = Threw(error: Error) | Resolved | Rejected(reason: Error)

  /** Everything one call of `request` did, in order, and how it ended. */
  datatype Run = Run(trace: seq<Event>, completion: Completion)

  // ---------------------------------------------------------------------------
  // Validation

  /** A registry entry passes when `entry.makeApiObj` is a function. (JavaScript
      throws a TypeError of its own on an `undefined` or `null` entry; both are
      a throw from the setter.) */
  predicate HasFactory(entry: Value) {
    !Nullish(entry) && TypeOf(Field(entry, "makeApiObj")) == "function"
  }

  /** What `validateConfig` throws, checked in its order; None when it returns.
      Only the validator's own errors and the engine's TypeError can come out,
      and a configuration that passes is truthy. */
  function ConfigProblem(config: Value): (problem: Option<Error>)
    ensures problem == None ==> Truthy(config)
    ensures problem.Some? ==>
      problem.value in {ConfigUndefined, ActionsNotObject, TypeError, MakeApiObjNotFunction,
                        ProviderNotObject, ProviderRequestNotFunction}
  {
    if !Truthy(config) then Some(ConfigUndefined)
    else
      var actions := Field(config, "actions");
      if TypeOf(actions) != "object" then Some(ActionsNotObject)
      else if actions.Null? then Some(TypeError)  // Object.keys(null)
      else if exists k :: k in actions.fields && !HasFactory(actions.fields[k]) then Some(MakeApiObjNotFunction)
      else
        var provider := Field(config, "provider");
        if TypeOf(provider) != "object" then Some(ProviderNotObject)
        else if provider.Null? then Some(TypeError)  // null.request
        else if TypeOf(Field(provider, "request")) != "function" then Some(ProviderRequestNotFunction)
        else None
  }

  /** The shape a configuration has to have: an object whose `actions` is an
      object of entries with a `makeApiObj` function, and whose `provider` is
      an object with a `request` function. */
  predicate WellFormed(config: Value) {
    && config.Obj?
    && Field(config, "actions").Obj?
    && (forall k :: k in Field(config, "actions").fields ==>
          Field(config, "actions").fields[k].Obj? &&
          Field(Field(config, "actions").fields[k], "makeApiObj").Fn?)
    && Field(config, "provider").Obj?
    && Field(Field(config, "provider"), "request").Fn?
  }

  /** `validateConfig` accepts exactly the well-formed configurations. */
  lemma ConfigProblemNoneIff(config: Value)
    ensures ConfigProblem(config) == None <==> WellFormed(config)
  {
    if ConfigProblem(config) == None {
      var actions := Field(config, "actions");
      forall k | k in actions.fields
        ensures actions.fields[k].Obj? && Field(actions.fields[k], "makeApiObj").Fn?
      {
        assert HasFactory(actions.fields[k]);
      }
    }
  }

  /** The configurations the repository's tests reject: `undefined`, an object
      without `actions`, and one whose only entry has no `makeApiObj`. */
  lemma RejectedConfigs()
    ensures ConfigProblem(Undefined) == Some(ConfigUndefined)
    ensures ConfigProblem(Obj(map["bad" := Bool(true)])) == Some(ActionsNotObject)
    ensures ConfigProblem(Obj(map["actions" := Obj(map["TEST" := Obj(map["bad" := Bool(true)])])]))
            == Some(MakeApiObjNotFunction)
  {
    var actions := Obj(map["TEST" := Obj(map["bad" := Bool(true)])]);
    assert !HasFactory(actions.fields["TEST"]);
  }

  /** `validateConfig(config)`: the same checks in the same order, the loop
      over the registry's keys included. */
  method ValidateConfig(config: Value) returns (problem: Option<Error>)
    ensures problem == ConfigProblem(config)
  {
    if !Truthy(config) {
      return Some(ConfigUndefined);
    }
    var actions := Field(config, "actions");
    if TypeOf(actions) != "object" {
      return Some(ActionsNotObject);
    }
    if actions.Null? {
      return Some(TypeError);
    }
    var unchecked := actions.fields.Keys;
    while unchecked != {}
      invariant unchecked <= actions.fields.Keys
      invariant forall k :: k in actions.fields && k !in unchecked ==> HasFactory(actions.fields[k])
      decreases unchecked
    {
      var k :| k in unchecked;
      if !HasFactory(actions.fields[k]) {
        return Some(MakeApiObjNotFunction);
      }
      unchecked := unchecked - {k};
    }
    var provider := Field(config, "provider");
    if TypeOf(provider) != "object" {
      return Some(ProviderNotObject);
    }
    if provider.Null? {
      return Some(TypeError);
    }
    if TypeOf(Field(provider, "request")) != "function" {
      return Some(ProviderRequestNotFunction);
    }
    return None;
  }

  // ---------------------------------------------------------------------------
  // Hooks

  /** Calling a function value: the three BasicConfig closures run as that
      module defines them; any other function is only recorded. */
  function Invoke(f: Value, args: seq<Value>): (e: Effect)
    ensures Truthy(f) ==> e != Nothing
    ensures f.Fn? && f.callable.User? ==> e == Effect([Call(f, args)], None)
  {
    match f
    case Fn(BasicBeforeRequest) => BasicConfig.BeforeRequest(Arg(args, 0), Arg(args, 1), Arg(args, 2))
    case Fn(BasicOnSuccess) => BasicConfig.OnSuccess(Arg(args, 0), Arg(args, 1), Arg(args, 2), Arg(args, 3))
    case Fn(BasicOnFailure) => BasicConfig.OnFailure(Arg(args, 0), Arg(args, 1), Arg(args, 2), Arg(args, 3))
    case _ => Apply(f, args)
  }

  /** The default `beforeRequest`, `onSuccess` and `onFailure` of a CallApi:
      read the hook of that name from the configuration and call it with the
      same arguments when it is present. */
  function Forward(config: Value, hook: string, args: seq<Value>): (e: Effect)
    ensures Nullish(config) ==> e == Effect([], Some(TypeError))
    ensures !Nullish(config) ==> (e == Nothing <==> !Truthy(Field(config, hook)))
    ensures !Nullish(config) && Truthy(Field(config, hook)) ==> e == Invoke(Field(config, hook), args)
  {
    if Nullish(config) then Effect([], Some(TypeError))
    else
      var f := Field(config, hook);
      if Truthy(f) then Invoke(f, args) else Nothing
  }

  // ---------------------------------------------------------------------------
  // request

  /** The value `config.actions[action.type]` names, for a configuration and
      an action that can be read. */
  function Entry(config: Value, action: Value): Value
    requires WellFormed(config) && !Nullish(action)
  {
    Field(Field(config, "actions"), PropertyKey(Field(action, "type")))
  }

  /** `request(action, dispatch, getState)` on a CallApi holding `config`.
      `factoryResult(f, action)` is what the factory `f` returns for `action`. */
  function RunRequest(config: Value, action: Value, dispatch: Value, getState: Value,
                      factoryResult: (Value, Value) -> Value, settlement: Settlement): (run: Run)
    // nothing is called without a configuration
    ensures !Truthy(config) ==> run == Run([], Threw(ConfigNotSet))
    // the first call, when there is one, receives the action unchanged
    ensures run.trace != [] ==> run.trace[0].args == [action]
    // a run that reaches the provider has called it, after at least one earlier call
    ensures !run.completion.Threw? ==> |run.trace| >= 2
    ensures !run.completion.Threw? ==>
              (&& Truthy(config)
               && exists i :: 0 < i < |run.trace| &&
                    Get(Field(config, "provider"), "request") == Success(run.trace[i].callee))
  {
    if !Truthy(config) then Run([], Threw(ConfigNotSet))
    else match Get(action, "type")
      case Failure(e) => Run([], Threw(e))
      case Success(actionType) =>
        match Get(Field(config, "actions"), PropertyKey(actionType))
        case Failure(e) => Run([], Threw(e))
        case Success(entry) =>
          if !Truthy(entry) then Run([], Threw(ActionNotInConfig))
          else
            var factory := Field(entry, "makeApiObj");
            if !factory.Fn? then Run([], Threw(TypeError))
            else
              var apiObj := factoryResult(factory, action);
              var made := [Call(factory, [action])];
              var before := Forward(config, "beforeRequest", [apiObj, dispatch, getState]);
              if before.thrown.Some? then Run(made + before.trace, Threw(before.thrown.value))
              else if !Truthy(apiObj) || !Truthy(Field(apiObj, "request")) then
                Run(made + before.trace, Threw(ApiObjWithoutRequest))
              else match Get(Field(config, "provider"), "request")
                case Failure(e) => Run(made + before.trace, Threw(e))
                case Success(send) =>
                  if !send.Fn? then Run(made + before.trace, Threw(TypeError))
                  else
                    var sent := made + before.trace + [Call(send, [Field(apiObj, "request")])];
                    var after := match settlement
                      case ProviderResolved(response) =>
                        Forward(config, "onSuccess", [response, apiObj, dispatch, getState])
                      case ProviderRejected(response) =>
                        Forward(config, "onFailure", [response, apiObj, dispatch, getState]);
                    assert (sent + after.trace)[|sent| - 1].callee == send;
                    Run(sent + after.trace, if after.thrown.Some? then Rejected(after.thrown.value) else Resolved)
  }

  /** Without a configuration, `request` throws before calling anything. */
  lemma RequestWithoutConfig(action: Value, dispatch: Value, getState: Value,
                             factoryResult: (Value, Value) -> Value, settlement: Settlement)
    ensures RunRequest(Undefined, action, dispatch, getState, factoryResult, settlement)
            == Run([], Threw(ConfigNotSet))
  {
  }

  /** An action whose type is not in the registry makes `request` throw before
      `makeApiObj`, any hook or the provider is called. */
  lemma UnknownActionThrows(config: Value, action: Value, dispatch: Value, getState: Value,
                            factoryResult: (Value, Value) -> Value, settlement: Settlement)
    requires WellFormed(config) && !Nullish(action)
    requires PropertyKey(Field(action, "type")) !in Field(config, "actions").fields
    ensures RunRequest(config, action, dispatch, getState, factoryResult, settlement)
            == Run([], Threw(ActionNotInConfig))
  {
  }

  /** With a well-formed configuration and a registered action, the entry's
      `makeApiObj` is called first, with the action unchanged, and then
      `beforeRequest` with the call object it returned. If that hook throws,
      or the call object has no `request`, `request` throws there and the
      provider is never called. */
  lemma FactoryThenBeforeRequest(config: Value, action: Value, dispatch: Value, getState: Value,
                                 factoryResult: (Value, Value) -> Value, settlement: Settlement)
    requires WellFormed(config) && !Nullish(action)
    requires PropertyKey(Field(action, "type")) in Field(config, "actions").fields
    ensures var factory := Field(Entry(config, action), "makeApiObj");
            var apiObj := factoryResult(factory, action);
            var before := Forward(config, "beforeRequest", [apiObj, dispatch, getState]);
            var run := RunRequest(config, action, dispatch, getState, factoryResult, settlement);
            && run.trace[..1 + |before.trace|] == [Call(factory, [action])] + before.trace
            && (before.thrown.Some? ==> run == Run([Call(factory, [action])] + before.trace, Threw(before.thrown.value)))
            && (before.thrown.None? && (!Truthy(apiObj) || !Truthy(Field(apiObj, "request"))) ==>
                  run == Run([Call(factory, [action])] + before.trace, Threw(ApiObjWithoutRequest)))
  {
  }

  /** Once the call object has a `request`, the provider is called exactly
      once, with that `request` unchanged, and its outcome goes to exactly one
      hook: `onSuccess` when it resolved, `onFailure` when it rejected. The
      provider's rejection is absorbed: the promise `request` returns rejects
      only when that hook throws. */
  lemma ProviderThenOneHook(config: Value, action: Value, dispatch: Value, getState: Value,
                            factoryResult: (Value, Value) -> Value, settlement: Settlement)
    requires WellFormed(config) && !Nullish(action)
    requires PropertyKey(Field(action, "type")) in Field(config, "actions").fields
    requires var apiObj := factoryResult(Field(Entry(config, action), "makeApiObj"), action);
             && Forward(config, "beforeRequest", [apiObj, dispatch, getState]).thrown.None?
             && Truthy(apiObj) && Truthy(Field(apiObj, "request"))
    ensures var factory := Field(Entry(config, action), "makeApiObj");
            var apiObj := factoryResult(factory, action);
            var before := Forward(config, "beforeRequest", [apiObj, dispatch, getState]);
            var send := Field(Field(config, "provider"), "request");
            var hook := if settlement.ProviderResolved? then "onSuccess" else "onFailure";
            var after := Forward(config, hook, [settlement.response, apiObj, dispatch, getState]);
            var run := RunRequest(config, action, dispatch, getState, factoryResult, settlement);
            && run.trace == [Call(factory, [action])] + before.trace + [Call(send, [Field(apiObj, "request")])] + after.trace
            && run.completion == (if after.thrown.Some? then Rejected(after.thrown.value) else Resolved)
  {
  }

  // ---------------------------------------------------------------------------
  // The CallApi object

  /** The CallApi object. Its `config` field is the only state; its three
      default hooks are the object's rendering of `Forward` on the held
      configuration, and `Request` is `RunRequest` carried out step by step. */
  class CallApi {
    /** The configuration, `undefined` until one is set. */
    var config: Value

    /** The held configuration has passed `validateConfig`. */
    ghost predicate Valid()
      reads this
    {
      config == Undefined || ConfigProblem(config) == None
    }

    /** `new CallApi()` */
    constructor ()
      ensures Valid() && config == Undefined
    {
      config := Undefined;
    }

    /** `new CallApi(config)`: a truthy argument goes through the setter, whose
        error escapes the constructor; a falsy one leaves the config unset. */
    static method New(config: Value) returns (r: Result<CallApi, Error>)
      ensures r.Failure? <==> Truthy(config) && ConfigProblem(config) != None
      ensures r.Failure? ==> Some(r.error) == ConfigProblem(config)
      ensures r.Success? ==> fresh(r.value) && r.value.Valid()
      ensures r.Success? ==> r.value.config == if Truthy(config) then config else Undefined
    {
      var api := new CallApi();
      if Truthy(config) {
        var problem := api.SetConfig(config);
        if problem.Some? {
          return Failure(problem.value);
        }
      }
      return Success(api);
    }

    /** The `config` setter: validate, then assign only if validation passed.
        Reading `config` afterwards gives the value set. */
    method SetConfig(c: Value) returns (problem: Option<Error>)
      requires Valid()
      modifies this
      ensures Valid()
      ensures problem == ConfigProblem(c)
      ensures problem == None ==> config == c
      ensures problem != None ==> config == old(config)
    {
      problem := ValidateConfig(c);
      if problem == None {
        config := c;
      }
    }

    /** The default `beforeRequest`. */
    method BeforeRequest(apiObj: Value, dispatch: Value, getState: Value) returns (e: Effect)
      ensures e == Forward(config, "beforeRequest", [apiObj, dispatch, getState])
    {
      if Nullish(config) {
        return Effect([], Some(TypeError));
      }
      var hook := Field(config, "beforeRequest");
      e := if Truthy(hook) then Invoke(hook, [apiObj, dispatch, getState]) else Nothing;
    }

    /** The default `onSuccess`. */
    method OnSuccess(response: Value, apiObj: Value, dispatch: Value, getState: Value) returns (e: Effect)
      ensures e == Forward(config, "onSuccess", [response, apiObj, dispatch, getState])
    {
      if Nullish(config) {
        return Effect([], Some(TypeError));
      }
      var hook := Field(config, "onSuccess");
      e := if Truthy(hook) then Invoke(hook, [response, apiObj, dispatch, getState]) else Nothing;
    }

    /** The default `onFailure`. */
    method OnFailure(response: Value, apiObj: Value, dispatch: Value, getState: Value) returns (e: Effect)
      ensures e == Forward(config, "onFailure", [response, apiObj, dispatch, getState])
    {
      if Nullish(config) {
        return Effect([], Some(TypeError));
      }
      var hook := Field(config, "onFailure");
      e := if Truthy(hook) then Invoke(hook, [response, apiObj, dispatch, getState]) else Nothing;
    }

    /** `request(action, dispatch, getState)`, step by step. */
    method Request(action: Value, dispatch: Value, getState: Value,
                   factoryResult: (Value, Value) -> Value, settlement: Settlement) returns (run: Run)
      ensures run == RunRequest(config, action, dispatch, getState, factoryResult, settlement)
    {
      if !Truthy(config) {
        return Run([], Threw(ConfigNotSet));
      }
      if Nullish(action) {
        return Run([], Threw(TypeError));
      }
      var actions := Field(config, "actions");
      if Nullish(actions) {
        return Run([], Threw(TypeError));
      }
      var entry := Field(actions, PropertyKey(Field(action, "type")));
      if !Truthy(entry) {
        return Run([], Threw(ActionNotInConfig));
      }
      var factory := Field(entry, "makeApiObj");
      if !factory.Fn? {
        return Run([], Threw(TypeError));
      }
      var apiObj := factoryResult(factory, action);
      var trace := [Call(factory, [action])];
      var before := BeforeRequest(apiObj, dispatch, getState);
      trace := trace + before.trace;
      if before.thrown.Some? {
        return Run(trace, Threw(before.thrown.value));
      }
      if !Truthy(apiObj) || !Truthy(Field(apiObj, "request")) {
        return Run(trace, Threw(ApiObjWithoutRequest));
      }
      var provider := Field(config, "provider");
      if Nullish(provider) {
        return Run(trace, Threw(TypeError));
      }
      var send := Field(provider, "request");
      if !send.Fn? {
        return Run(trace, Threw(TypeError));
      }
      trace := trace + [Call(send, [Field(apiObj, "request")])];
      var after;
      match settlement {
        case ProviderResolved(response) =>
          after := OnSuccess(response, apiObj, dispatch, getState);
        case ProviderRejected(response) =>
          after := OnFailure(response, apiObj, dispatch, getState);
      }
      trace := trace + after.trace;
      run := Run(trace, if after.thrown.Some? then Rejected(after.thrown.value) else Resolved);
    }
  }

  /** A CallApi holding a configuration holds a well-formed one, which is what
      the request lemmas above require. */
  lemma HeldConfigWellFormed(api: CallApi)
    requires api.Valid() && api.config != Undefined
    ensures WellFormed(api.config)
  {
    ConfigProblemNoneIff(api.config);
  }
}

=== FILE: js.dfy ===
/**
  The slice of JavaScript's value and call semantics that the adapter relies on:
  truthiness, `typeof`, property reads (which throw on `undefined` and `null`),
  and calls of functions, which the model records as events in a trace.
 */
module Js {
  import opened Wrappers

  /** The functions a value can be. The three `Basic…` ones are the closures
      that the BasicConfig constructor creates; every other function is user
      code, known only by a name. */
  datatype Callable =
    | User(name: string)
    | BasicBeforeRequest
    | BasicOnSuccess
    | BasicOnFailure

  /** A JavaScript value. Objects are maps from property names to values. */
  datatype Value =
    | Undefined
    | Null
    | Bool(b: bool)
    | Num(n: int)
    | Str(s: string)
    | Obj(fields: map<string, Value>)
    | Fn(callable: Callable)

  /** Everything the adapter throws. The first five come from `validateConfig`,
      the next three from `request`, `MissingActionType` from BasicConfig's
      `validate`; `TypeError` is the engine's own (a property read on
      `undefined` or `null`, or a call of something that is not a function). */
  datatype Error =
    | ConfigUndefined
    | ActionsNotObject
    | MakeApiObjNotFunction
    | ProviderNotObject
    | ProviderRequestNotFunction
    | ConfigNotSet
    | ActionNotInConfig
    | ApiObjWithoutRequest
    | MissingActionType(kind: string)
    | TypeError

  /** One observable step: a function value called with these arguments. */
  datatype Event = Call(callee: Value, args: seq<Value>)

  /** What running a piece of code did: the calls it made, in order, and the
      exception it ended with, if any. */
  datatype Effect = Effect(trace: seq<Event>, thrown: Option<Error>)

  const Nothing := Effect([], None)

  predicate Nullish(v: Value) {
    v.Undefined? || v.Null?
  }

  /** JavaScript's ToBoolean. */
  predicate Truthy(v: Value) {
    match v
    case Undefined => false
    case Null => false
    case Bool(b) => b
    case Num(n) => n != 0
    case Str(s) => s != ""
    case Obj(_) => true
    case Fn(_) => true
  }

  /** The `typeof` operator, `null` included. */
  function TypeOf(v: Value): string {
    match v
    case Undefined => "undefined"
    case Null => "object"
    case Bool(_) => "boolean"
    case Num(_) => "number"
    case Str(_) => "string"
    case Obj(_) => "object"
    case Fn(_) => "function"
  }

  /** `v[key]` on a value that is neither `undefined` nor `null`: an absent
      property, or any property of a primitive or a function, reads as
      `undefined`. */
  function Field(v: Value, key: string): Value
    requires !Nullish(v)
  {
    if v.Obj? && key in v.fields then v.fields[key] else Undefined
  }

  /** `v[key]` on any value: throws a TypeError on `undefined` and `null`. */
  function Get(v: Value, key: string): Result<Value, Error>
  {
    if Nullish(v) then Failure(TypeError) else Success(Field(v, key))
  }

  /** The `i`-th argument of a call; a missing argument is `undefined`. */
  function Arg(args: seq<Value>, i: nat): Value {
    if i < |args| then args[i] else Undefined
  }

  function Digit(d: nat): char
    requires d < 10
  {
    "0123456789"[d]
  }

  function Decimal(n: nat): string
    decreases n
  {
    if n < 10 then [Digit(n)] else Decimal(n / 10) + [Digit(n % 10)]
  }

  /** ToPropertyKey: the string a value names when used as `obj[v]`. A user
      function stands for its source text by its name. */
  function PropertyKey(v: Value): string {
    match v
    case Undefined => "undefined"
    case Null => "null"
    case Bool(b) => if b then "true" else "false"
    case Num(n) => if n < 0 then "-" + Decimal(-n) else Decimal(n)
    case Str(s) => s
    case Obj(_) => "[object Object]"
    case Fn(c) => if c.User? then c.name else "function"
  }

  /** `f(...args)` for a function whose body is not modelled: the call is the
      only thing seen. Calling anything that is not a function throws. */
  function Apply(f: Value, args: seq<Value>): (e: Effect)
    ensures |e.trace| <= 1
    ensures e.trace != [] <==> e.thrown == None
    ensures e.trace != [] ==> e.trace[0].callee == f && e.trace[0].args == args
  {
    if f.Fn? then Effect([Call(f, args)], None) else Effect([], Some(TypeError))
  }

  /** `if (f) { f(...args); }`: the "call it if it exists" pattern. */
  function CallIfPresent(f: Value, args: seq<Value>): (e: Effect)
    ensures !Truthy(f) ==> e == Nothing
    ensures Truthy(f) && f.Fn? ==> e == Effect([Call(f, args)], None)
    ensures Truthy(f) && !f.Fn? ==> e == Effect([], Some(TypeError))
  {
    if Truthy(f) then Apply(f, args) else Nothing
  }

  /** Run `a`, then `b` unless `a` threw. */
  function Then(a: Effect, b: Effect): (e: Effect)
    ensures b == Nothing ==> e == a
    ensures a == Nothing ==> e == b
    ensures a.trace <= e.trace
    ensures e.thrown == None <==> a.thrown == None && b.thrown == None
  {
    if a.thrown.Some? then a else Effect(a.trace + b.trace, b.thrown)
  }

  /** The arguments of every call of `dispatch` in a trace, in order: the
      actions dispatched. */
  function Dispatched(trace: seq<Event>, dispatch: Value): seq<Value>
  {
    if trace == [] then []
    else (if trace[0].callee == dispatch then [Arg(trace[0].args, 0)] else [])
         + Dispatched(trace[1..], dispatch)
  }

  lemma {:induction false} DispatchedAppend(s: seq<Event>, t: seq<Event>, dispatch: Value)
    ensures Dispatched(s + t, dispatch) == Dispatched(s, dispatch) + Dispatched(t, dispatch)
  {
    if s == [] {
      assert s + t == t;
    } else {
      var u := s + t;
      var head := if s[0].callee == dispatch then [Arg(s[0].args, 0)] else [];
      assert u[0] == s[0] && u[1..] == s[1..] + t;
      DispatchedAppend(s[1..], t, dispatch);
      assert Dispatched(u, dispatch) == head + (Dispatched(s[1..], dispatch) + Dispatched(t, dispatch));
    }
  }
}

=== FILE: lifecycle.dfy ===
/**
  A CallApi whose configuration is a BasicConfig, followed through a whole
  request: which calls happen, in which order, and which actions reach
  `dispatch`.
 */
module Lifecycle {
  import opened Wrappers
  import opened Js
  import BasicConfig
  import opened CallApi

  /** The action-type kind and the hook a provider outcome is routed to. */
  function OutcomeKind(settlement: Settlement): string {
    if settlement.ProviderResolved? then "success" else "failure"
  }

  function OutcomeHook(settlement: Settlement): string {
    if settlement.ProviderResolved? then "onSuccess" else "onFailure"
  }

  /** A call object `beforeRequest` accepts and `request` sends: it names the
      request action type and a request, its `beforeRequest` override is
      absent or a function, and `dispatch` is a function. */
  predicate RequestReady(apiObj: Value, dispatch: Value) {
    && BasicConfig.HasActionType(apiObj, "request")
    && Truthy(Field(apiObj, "request"))
    && BasicConfig.Callable(apiObj, "beforeRequest", dispatch)
  }

  /** A call object the default hooks accept for this outcome: ready for the
      request, naming the outcome's action type, with the outcome's override
      absent or a function. Nothing is asked of the other outcome. */
  predicate Conventional(apiObj: Value, dispatch: Value, settlement: Settlement) {
    && RequestReady(apiObj, dispatch)
    && BasicConfig.HasActionType(apiObj, OutcomeKind(settlement))
    && BasicConfig.OverrideCallable(apiObj, OutcomeHook(settlement))
  }

  /** `dispatch` is none of the other functions the run calls: the factory,
      the provider's `request` and the two overrides that run. */
  predicate Distinct(factory: Value, send: Value, apiObj: Value, dispatch: Value, settlement: Settlement)
    requires !Nullish(apiObj)
  {
    && dispatch != factory
    && dispatch != send
    && dispatch != Field(apiObj, "beforeRequest")
    && dispatch != Field(apiObj, OutcomeHook(settlement))
  }

  /** The action the hook for the outcome dispatches. */
  function OutcomeAction(settlement: Settlement, apiObj: Value): Value
    requires BasicConfig.HasActionType(apiObj, OutcomeKind(settlement)) && !Nullish(settlement.response)
  {
    if settlement.ProviderResolved? then BasicConfig.SuccessAction(apiObj, settlement.response)
    else BasicConfig.FailureAction(apiObj, settlement.response)
  }

  /** The calls the BasicConfig hook for a provider outcome makes when it does
      not throw: the outcome's override, then its one action. */
  function OutcomeCalls(settlement: Settlement, apiObj: Value, dispatch: Value, getState: Value): seq<Event>
    requires BasicConfig.HasActionType(apiObj, OutcomeKind(settlement)) && !Nullish(settlement.response)
  {
    BasicConfig.OverrideCalls(apiObj, OutcomeHook(settlement), [settlement.response, apiObj, dispatch, getState])
    + [Call(dispatch, [OutcomeAction(settlement, apiObj)])]
  }

  /** A BasicConfig passes `validateConfig` exactly when its registry is an
      object of entries with a `makeApiObj` function and its provider an
      object with a `request` function. */
  lemma BasicConfigAccepted(actions: Value, provider: Value)
    ensures ConfigProblem(BasicConfig.New(actions, provider)) == None <==>
      && actions.Obj?
      && (forall k :: k in actions.fields ==>
            actions.fields[k].Obj? && Field(actions.fields[k], "makeApiObj").Fn?)
      && provider.Obj?
      && Field(provider, "request").Fn?
  {
    ConfigProblemNoneIff(BasicConfig.New(actions, provider));
  }

  /** A BasicConfig's hooks are the ones a CallApi forwards to. */
  lemma ForwardsToBasicHooks(actions: Value, provider: Value, args: seq<Value>)
    ensures Forward(BasicConfig.New(actions, provider), "beforeRequest", args)
            == BasicConfig.BeforeRequest(Arg(args, 0), Arg(args, 1), Arg(args, 2))
    ensures Forward(BasicConfig.New(actions, provider), "onSuccess", args)
            == BasicConfig.OnSuccess(Arg(args, 0), Arg(args, 1), Arg(args, 2), Arg(args, 3))
    ensures Forward(BasicConfig.New(actions, provider), "onFailure", args)
            == BasicConfig.OnFailure(Arg(args, 0), Arg(args, 1), Arg(args, 2), Arg(args, 3))
  {
  }

  /** A BasicConfig's `beforeRequest`, reached through a CallApi, runs the
      override and then dispatches the request action. */
  lemma BasicBeforeRequestEffect(actions: Value, provider: Value, apiObj: Value, dispatch: Value, getState: Value)
    requires BasicConfig.HasActionType(apiObj, "request") && BasicConfig.Callable(apiObj, "beforeRequest", dispatch)
    ensures Forward(BasicConfig.New(actions, provider), "beforeRequest", [apiObj, dispatch, getState])
            == Effect(BasicConfig.OverrideCalls(apiObj, "beforeRequest", [apiObj, dispatch, getState])
                      + [Call(dispatch, [BasicConfig.RequestAction(apiObj)])], None)
  {
    ForwardsToBasicHooks(actions, provider, [apiObj, dispatch, getState]);
  }

  /** A BasicConfig's hook for the provider's outcome, reached through a
      CallApi, runs that outcome's override and then dispatches its action. */
  lemma BasicOutcomeEffect(actions: Value, provider: Value, settlement: Settlement, apiObj: Value, dispatch: Value, getState: Value)
    requires BasicConfig.HasActionType(apiObj, OutcomeKind(settlement)) && BasicConfig.Callable(apiObj, OutcomeHook(settlement), dispatch)
    requires !Nullish(settlement.response)
    ensures Forward(BasicConfig.New(actions, provider), OutcomeHook(settlement),
                    [settlement.response, apiObj, dispatch, getState])
            == Effect(OutcomeCalls(settlement, apiObj, dispatch, getState), None)
  {
    ForwardsToBasicHooks(actions, provider, [settlement.response, apiObj, dispatch, getState]);
  }

  /** Without the outcome's action type, BasicConfig's hook for that outcome,
      reached through a CallApi, throws before calling anything. */
  lemma BasicOutcomeUnnamed(actions: Value, provider: Value, settlement: Settlement, apiObj: Value, dispatch: Value, getState: Value)
    requires !BasicConfig.HasActionType(apiObj, OutcomeKind(settlement))
    ensures Forward(BasicConfig.New(actions, provider), OutcomeHook(settlement),
                    [settlement.response, apiObj, dispatch, getState])
            == Effect([], Some(MissingActionType(OutcomeKind(settlement))))
  {
    ForwardsToBasicHooks(actions, provider, [settlement.response, apiObj, dispatch, getState]);
  }

  /** Regrouping the calls of a trace. */
  lemma Regroup(x: seq<Event>, y: seq<Event>, z: seq<Event>)
    ensures x + (y + z) == x + y + z
  {
  }

  /** Once the effects of `beforeRequest` and of the outcome's hook are
      known, the run of `request` is the factory call, the first effect, the
      provider call and the second effect. */
  lemma RunThroughProvider(config: Value, action: Value, dispatch: Value, getState: Value,
                           factoryResult: (Value, Value) -> Value, settlement: Settlement,
                           before: seq<Event>, after: Effect)
    requires WellFormed(config) && !Nullish(action)
    requires PropertyKey(Field(action, "type")) in Field(config, "actions").fields
    requires var apiObj := factoryResult(Field(Entry(config, action), "makeApiObj"), action);
             && Truthy(apiObj) && Truthy(Field(apiObj, "request"))
             && Forward(config, "beforeRequest", [apiObj, dispatch, getState]) == Effect(before, None)
             && Forward(config, OutcomeHook(settlement), [settlement.response, apiObj, dispatch, getState]) == after
    ensures var factory := Field(Entry(config, action), "makeApiObj");
            var apiObj := factoryResult(factory, action);
            var send := Field(Field(config, "provider"), "request");
            RunRequest(config, action, dispatch, getState, factoryResult, settlement)
              == Run([Call(factory, [action])] + before + [Call(send, [Field(apiObj, "request")])] + after.trace,
                     if after.thrown.Some? then Rejected(after.thrown.value) else Resolved)
  {
    ProviderThenOneHook(config, action, dispatch, getState, factoryResult, settlement);
  }

  /** The whole trace of a request through a BasicConfig, for either outcome:
      the factory call, the `beforeRequest` override, the request action, the
      provider call, the outcome's override and the outcome's action. The
      returned promise resolves. */
  lemma BasicRequestTrace(actions: Value, provider: Value, action: Value, dispatch: Value, getState: Value,
                          factoryResult: (Value, Value) -> Value, settlement: Settlement)
    requires WellFormed(BasicConfig.New(actions, provider)) && !Nullish(action)
    requires PropertyKey(Field(action, "type")) in actions.fields
    requires Conventional(factoryResult(Field(actions.fields[PropertyKey(Field(action, "type"))], "makeApiObj"), action),
                          dispatch, settlement)
    requires !Nullish(settlement.response)
    ensures var config := BasicConfig.New(actions, provider);
            var factory := Field(Entry(config, action), "makeApiObj");
            var apiObj := factoryResult(factory, action);
            var run := RunRequest(config, action, dispatch, getState, factoryResult, settlement);
            && run.completion == Resolved
            && run.trace ==
                 [Call(factory, [action])]
                 + BasicConfig.OverrideCalls(apiObj, "beforeRequest", [apiObj, dispatch, getState])
                 + [Call(dispatch, [BasicConfig.RequestAction(apiObj)])]
                 + [Call(Field(provider, "request"), [Field(apiObj, "request")])]
                 + OutcomeCalls(settlement, apiObj, dispatch, getState)
  {
    var config := BasicConfig.New(actions, provider);
    var factory := Field(Entry(config, action), "makeApiObj");
    var apiObj := factoryResult(factory, action);
    var b := BasicConfig.OverrideCalls(apiObj, "beforeRequest", [apiObj, dispatch, getState]);
    var c := [Call(dispatch, [BasicConfig.RequestAction(apiObj)])];
    var d := [Call(Field(provider, "request"), [Field(apiObj, "request")])];
    var e := OutcomeCalls(settlement, apiObj, dispatch, getState);
    BasicBeforeRequestEffect(actions, provider, apiObj, dispatch, getState);
    BasicOutcomeEffect(actions, provider, settlement, apiObj, dispatch, getState);
    RunThroughProvider(config, action, dispatch, getState, factoryResult, settlement, b + c, Effect(e, None));
    Regroup([Call(factory, [action])], b, c);
  }

  /** A trace of one call holds a dispatch exactly when that call is one. */
  lemma DispatchedSingle(event: Event, dispatch: Value)
    ensures Dispatched([event], dispatch) == (if event.callee == dispatch then [Arg(event.args, 0)] else [])
  {
    assert [event][1..] == [];
  }

  /** An override other than `dispatch` dispatches nothing of its own. */
  lemma OverrideDispatchesNothing(apiObj: Value, hook: string, args: seq<Value>, dispatch: Value)
    requires !Nullish(apiObj) && dispatch != Field(apiObj, hook)
    ensures Dispatched(BasicConfig.OverrideCalls(apiObj, hook, args), dispatch) == []
  {
    if Truthy(Field(apiObj, hook)) {
      DispatchedSingle(Call(Field(apiObj, hook), args), dispatch);
    }
  }

  /** Up to the provider call, `dispatch` receives only the request action. */
  lemma DispatchedBeforeProvider(factory: Value, action: Value, send: Value, apiObj: Value,
                                 dispatch: Value, getState: Value)
    requires BasicConfig.HasActionType(apiObj, "request")
    requires dispatch != factory && dispatch != send && dispatch != Field(apiObj, "beforeRequest")
    ensures var trace :=
              [Call(factory, [action])]
              + BasicConfig.OverrideCalls(apiObj, "beforeRequest", [apiObj, dispatch, getState])
              + [Call(dispatch, [BasicConfig.RequestAction(apiObj)])]
              + [Call(send, [Field(apiObj, "request")])];
            Dispatched(trace, dispatch) == [BasicConfig.RequestAction(apiObj)]
  {
    var request := BasicConfig.RequestAction(apiObj);
    var a := [Call(factory, [action])];
    var b := BasicConfig.OverrideCalls(apiObj, "beforeRequest", [apiObj, dispatch, getState]);
    var c := [Call(dispatch, [request])];
    var d := [Call(send, [Field(apiObj, "request")])];
    DispatchedSingle(a[0], dispatch);
    DispatchedSingle(c[0], dispatch);
    DispatchedSingle(d[0], dispatch);
    OverrideDispatchesNothing(apiObj, "beforeRequest", [apiObj, dispatch, getState], dispatch);
    DispatchedAppend(a, b, dispatch);
    DispatchedAppend(a + b, c, dispatch);
    DispatchedAppend(a + b + c, d, dispatch);
  }

  /** The outcome's hook makes `dispatch` receive only the outcome's action. */
  lemma DispatchedOfOutcome(settlement: Settlement, apiObj: Value, dispatch: Value, getState: Value)
    requires BasicConfig.HasActionType(apiObj, OutcomeKind(settlement)) && !Nullish(settlement.response)
    requires dispatch != Field(apiObj, OutcomeHook(settlement))
    ensures Dispatched(OutcomeCalls(settlement, apiObj, dispatch, getState), dispatch)
            == [OutcomeAction(settlement, apiObj)]
  {
    var args := [settlement.response, apiObj, dispatch, getState];
    var e := BasicConfig.OverrideCalls(apiObj, OutcomeHook(settlement), args);
    var f := [Call(dispatch, [OutcomeAction(settlement, apiObj)])];
    DispatchedSingle(f[0], dispatch);
    OverrideDispatchesNothing(apiObj, OutcomeHook(settlement), args, dispatch);
    DispatchedAppend(e, f, dispatch);
  }

  /** In the trace of a request through a BasicConfig, `dispatch` receives
      the request action and then the outcome's action, nothing else. */
  lemma DispatchedOfBasicTrace(factory: Value, action: Value, send: Value, apiObj: Value,
                               dispatch: Value, getState: Value, settlement: Settlement)
    requires Conventional(apiObj, dispatch, settlement) && Distinct(factory, send, apiObj, dispatch, settlement)
    requires !Nullish(settlement.response)
    ensures var trace :=
              [Call(factory, [action])]
              + BasicConfig.OverrideCalls(apiObj, "beforeRequest", [apiObj, dispatch, getState])
              + [Call(dispatch, [BasicConfig.RequestAction(apiObj)])]
              + [Call(send, [Field(apiObj, "request")])]
              + OutcomeCalls(settlement, apiObj, dispatch, getState);
            Dispatched(trace, dispatch) == [BasicConfig.RequestAction(apiObj), OutcomeAction(settlement, apiObj)]
  {
    var prefix :=
      [Call(factory, [action])]
      + BasicConfig.OverrideCalls(apiObj, "beforeRequest", [apiObj, dispatch, getState])
      + [Call(dispatch, [BasicConfig.RequestAction(apiObj)])]
      + [Call(send, [Field(apiObj, "request")])];
    DispatchedBeforeProvider(factory, action, send, apiObj, dispatch, getState);
    DispatchedOfOutcome(settlement, apiObj, dispatch, getState);
    DispatchedAppend(prefix, OutcomeCalls(settlement, apiObj, dispatch, getState), dispatch);
  }

  /** Exactly one action is dispatched before the provider call and exactly
      one after it: `{type: request}`, then the success or the failure
      action. */
  lemma BasicRequestDispatches(actions: Value, provider: Value, action: Value, dispatch: Value, getState: Value,
                               factoryResult: (Value, Value) -> Value, settlement: Settlement)
    requires WellFormed(BasicConfig.New(actions, provider)) && !Nullish(action)
    requires PropertyKey(Field(action, "type")) in actions.fields
    requires var factory := Field(actions.fields[PropertyKey(Field(action, "type"))], "makeApiObj");
             && Conventional(factoryResult(factory, action), dispatch, settlement)
             && Distinct(factory, Field(provider, "request"), factoryResult(factory, action), dispatch, settlement)
    requires !Nullish(settlement.response)
    ensures var config := BasicConfig.New(actions, provider);
            var apiObj := factoryResult(Field(Entry(config, action), "makeApiObj"), action);
            var run := RunRequest(config, action, dispatch, getState, factoryResult, settlement);
            && run.completion == Resolved
            && Dispatched(run.trace, dispatch) == [BasicConfig.RequestAction(apiObj), OutcomeAction(settlement, apiObj)]
  {
    var config := BasicConfig.New(actions, provider);
    var factory := Field(Entry(config, action), "makeApiObj");
    var apiObj := factoryResult(factory, action);
    BasicRequestTrace(actions, provider, action, dispatch, getState, factoryResult, settlement);
    DispatchedOfBasicTrace(factory, action, Field(provider, "request"), apiObj, dispatch, getState, settlement);
  }

  /** A call object without a request action type stops the run in
      `beforeRequest`: `request` throws before anything is dispatched and
      before the provider is called. */
  lemma MissingRequestTypeThrows(actions: Value, provider: Value, action: Value, dispatch: Value, getState: Value,
                                 factoryResult: (Value, Value) -> Value, settlement: Settlement)
    requires WellFormed(BasicConfig.New(actions, provider)) && !Nullish(action)
    requires PropertyKey(Field(action, "type")) in actions.fields
    requires !BasicConfig.HasActionType(factoryResult(Field(actions.fields[PropertyKey(Field(action, "type"))], "makeApiObj"), action), "request")
    ensures var config := BasicConfig.New(actions, provider);
            var factory := Field(Entry(config, action), "makeApiObj");
            RunRequest(config, action, dispatch, getState, factoryResult, settlement)
              == Run([Call(factory, [action])], Threw(MissingActionType("request")))
  {
    var config := BasicConfig.New(actions, provider);
    FactoryThenBeforeRequest(config, action, dispatch, getState, factoryResult, settlement);
  }

  /** A call object without the action type of the provider's outcome makes
      the promise `request` returned reject, after the request action was
      dispatched and the provider called, and nothing more is dispatched. */
  lemma MissingOutcomeTypeRejects(actions: Value, provider: Value, action: Value, dispatch: Value, getState: Value,
                                  factoryResult: (Value, Value) -> Value, settlement: Settlement)
    requires WellFormed(BasicConfig.New(actions, provider)) && !Nullish(action)
    requires PropertyKey(Field(action, "type")) in actions.fields
    requires var apiObj := factoryResult(Field(actions.fields[PropertyKey(Field(action, "type"))], "makeApiObj"), action);
             RequestReady(apiObj, dispatch) && !BasicConfig.HasActionType(apiObj, OutcomeKind(settlement))
    ensures var config := BasicConfig.New(actions, provider);
            var factory := Field(Entry(config, action), "makeApiObj");
            var apiObj := factoryResult(factory, action);
            var run := RunRequest(config, action, dispatch, getState, factoryResult, settlement);
            && run.completion == Rejected(MissingActionType(OutcomeKind(settlement)))
            && run.trace ==
                 [Call(factory, [action])]
                 + BasicConfig.OverrideCalls(apiObj, "beforeRequest", [apiObj, dispatch, getState])
                 + [Call(dispatch, [BasicConfig.RequestAction(apiObj)])]
                 + [Call(Field(provider, "request"), [Field(apiObj, "request")])]
  {
    var config := BasicConfig.New(actions, provider);
    var factory := Field(Entry(config, action), "makeApiObj");
    var apiObj := factoryResult(factory, action);
    var b := BasicConfig.OverrideCalls(apiObj, "beforeRequest", [apiObj, dispatch, getState]);
    var c := [Call(dispatch, [BasicConfig.RequestAction(apiObj)])];
    var d := [Call(Field(provider, "request"), [Field(apiObj, "request")])];
    BasicBeforeRequestEffect(actions, provider, apiObj, dispatch, getState);
    BasicOutcomeUnnamed(actions, provider, settlement, apiObj, dispatch, getState);
    RunThroughProvider(config, action, dispatch, getState, factoryResult, settlement, b + c,
                       Effect([], Some(MissingActionType(OutcomeKind(settlement)))));
    Regroup([Call(factory, [action])], b, c);
    assert [Call(factory, [action])] + b + c + d + [] == [Call(factory, [action])] + b + c + d;
  }

  /** The failure from the repository's own example: `{data: 'not found',
      status: 404}` becomes the payload `'not found'` with meta
      `{status: 404}`. */
  lemma NotFoundFailure(apiObj: Value)
    requires BasicConfig.HasActionType(apiObj, "failure")
    ensures var response := Obj(map["data" := Str("not found"), "status" := Num(404)]);
            var failure := BasicConfig.FailureAction(apiObj, response);
            && failure.fields["payload"] == Str("not found")
            && failure.fields["error"] == Bool(true)
            && failure.fields["meta"] == Obj(map["status" := Num(404)])
  {
    var response := Obj(map["data" := Str("not found"), "status" := Num(404)]);
    assert BasicConfig.Meta(response) == map["status" := Num(404)];
  }
}

=== FILE: wrappers.dfy ===
/** Optional values and results with an error, used throughout the model. */
module Wrappers {

  datatype Option<+T> = None | Some(value: T)

  datatype Result<+T, +E> = Success(value: T) | Failure(error: E)
}
